=== FILE: README.md ===
# image-generator: a Dafny model of `defaultImage` and `wrapText`

The library draws a placeholder PNG. The image has a background fill (one colour, or a linear or radial gradient through several), a border stroked along its edge, and a text centred in it. The text is either the caller's or the fallback label `"<width>x<height>"`. This project models the two functions of `src/module.ts`:

- `wrapText` splits the text into words at runs of whitespace. It fills lines greedily against 85% of the canvas width, as measured by the drawing surface. It then draws every line at the horizontal centre, one line height apart, with the block centred vertically.
- `defaultImage` merges the options over the documented defaults, picks the text, resolves the fill style and gradient stops, insets the border rectangle, builds the font string, and calls `wrapText` with a line height of 1.3 × the font size.

The drawing surface is not modelled. `defaultImage` is modelled as a *draw plan*: a record of every argument it hands to the surface (canvas size, fill style, rectangles, colours, font, text alignment and baseline, and the `fillText(text, x, y)` calls). `measureText(s).width` is a function parameter, `measure(font, s)`. Nothing is assumed about it, so every property holds for any font metrics. Numbers are exact reals.

Files:

- `wrappers.dfy`: `Option`, for options that may be left out.
- `text.dfy`: the ECMAScript `\s` character class, `split` by `/[\s\n\r]{1,}/g`, `trim`, and `join(" ")`.
- `numerals.dfy`: the decimal text of a whole number, as a template literal prints it, and reading it back.
- `wrap.dfy`: the greedy wrap, a declarative description of it, and the placement of the lines.
- `image.dfy`: options and defaults, fallback label, fill and gradient stops, border, font, line height, and the plan.

The wrap is proved equal to a declarative rule, `Wrap.Greedy`. That rule says the lines hold the words in order and break exactly where the candidate `current.join(" ") + " " + word` measures wider than 85% of the width. The proof goes both ways: the lines the loop emits satisfy the rule, and any list of lines that satisfies it *is* the loop's output. The placement is likewise the only one that puts every line on the centre column, spaces the lines by the line height, and centres the block.

Three behaviours of the code worth knowing:

- `split` of the empty string yields `[""]`, so `wrapText` on an empty text never draws zero lines. It draws one empty line, or two when a single space is already wider than the budget (`Wrap.EmptyTextLines`).
- The y offset divides by 2 exactly (`lines.length / 2` is not an integer division in JavaScript). The block is therefore centred for every number of lines, odd or even.
- When the break test fires on an empty current line, the code pushes that empty line. The current line is empty only before the first word, so the first word, when it is too wide even for an empty line, gets a line holding no words in front of it (`Wrap.EmptyFirstLine`). No later word gets one: after the first word the current line is never empty.

## Model

| member | source | states |
|---|---|---|
| `Text.Split` | src/module.ts:11 | splitting at runs of whitespace gives at least one piece; no piece holds whitespace; only the first and last piece may be empty; a text that starts with a non-space character has a non-empty first piece |
| `Text.Tokens` | src/module.ts:11 | trimming each piece after the split changes nothing: the tokens are exactly the split pieces |
| `Text.Trim` | src/module.ts:11 | `trim` returns a slice of the input with only whitespace before and after it, and the slice neither starts nor ends with whitespace, so exactly the whitespace at both ends is removed; a whitespace-free string comes back unchanged |
| `Text.TrimStart` | src/module.ts:11 | the result is a suffix of the input; everything dropped is whitespace; the result does not start with whitespace |
| `Text.TrimEnd` | src/module.ts:11 | the result is a prefix of the input; everything dropped is whitespace; the result does not end with whitespace |
| `Text.JoinSplit` | src/module.ts:11 | joining the split pieces with " " gives the text with every whitespace run replaced by one space |
| `Text.SplitJoin` | src/module.ts:11 | split inverts join on every piece list split can produce |
| `Text.SplitWord` | src/module.ts:11 | a whitespace-free word splits to itself alone |
| `Text.JoinLength` | src/module.ts:17-26 | `join(" ")` of no words is ""; otherwise the join's length is the number of letters in all the words plus n − 1, and it starts with the first word |
| `Text.JoinSnoc` | src/module.ts:17 | appending a word to a non-empty list appends " " and the word to its join |
| `Wrap.BreakMeans` | src/module.ts:17-18 | a word breaks the line exactly when the current line with the word appended measures wider than the budget; on an empty current line the string measured is " " + word |
| `Wrap.Step` | src/module.ts:17-22 | one pass of the loop keeps every word seen, in order; the word just seen ends the current line; the number of lines, counting a non-empty current line, never decreases |
| `Wrap.Scan` | src/module.ts:16-23 | after the loop, the pushed lines followed by the current line are exactly the words; the current line is empty only when there were no words |
| `Wrap.Flush` | src/module.ts:25-27 | the final flush adds the current line exactly when it is non-empty and loses no word |
| `Wrap.Groups` | src/module.ts:11-27 | the lines' word lists concatenate to the words, so no word is lost, duplicated, reordered or split; there is at least one line whenever there is a word |
| `Wrap.Lines` | src/module.ts:19-26 | one text per line, each the words of that line joined by single spaces |
| `Wrap.EmptyThenWord` | src/module.ts:18-22 | a first word that fails the break test on an empty line gives an empty line and then the word, which satisfies the greedy rule |
| `Wrap.WordAlone` | src/module.ts:17-22 | a first word that passes the break test opens the first line alone, which satisfies the greedy rule |
| `Wrap.FirstStep` | src/module.ts:16-23 | after the first word, the lines so far satisfy the greedy rule, including the empty first line when that word alone does not fit |
| `Wrap.StepKeepsOpen` | src/module.ts:16-23 | each loop pass keeps the lines so far a greedy wrap of the words seen (the loop invariant) |
| `Wrap.BreakKeepsOpen` | src/module.ts:18-22 | a break pushes the current line and opens a new line holding just the word, keeping the greedy rule |
| `Wrap.AppendKeepsOpen` | src/module.ts:17-22 | a word that fits joins the current line, keeping the greedy rule |
| `Wrap.ScanIsOpen` | src/module.ts:16-23 | after any non-empty prefix of the words, the pushed lines plus the current line form a greedy wrap of that prefix |
| `Wrap.GroupsAreGreedy` | src/module.ts:16-27 | the emitted lines satisfy the break rule: each later line starts with a word that did not fit behind the line before it, and every other word fitted behind the words before it on its line |
| `Wrap.DropBrokenLine` | src/module.ts:18-22 | a last line holding one word started by a break can be removed, leaving a greedy wrap of the other words |
| `Wrap.DropAppendedWord` | src/module.ts:17-22 | the last word of a last line of two or more words passed the break test and can be removed, leaving a greedy wrap |
| `Wrap.ScanAfterBreak` | src/module.ts:18-22 | a last line holding just the last word, started by a break, is the loop state one pass after the lines before it |
| `Wrap.ScanAfterFit` | src/module.ts:17-22 | a last line ending in the last word, which passed the break test, is the loop state one pass after the line without it |
| `Wrap.GreedyIsScan` | src/module.ts:16-23 | every greedy wrap of the words is the loop state after visiting them, with its last line as the current line |
| `Wrap.GroupsCharacterised` | src/module.ts:16-27 | a list of lines is a greedy wrap of the words if and only if it is the list the code emits |
| `Wrap.WidthBound` | src/module.ts:17-22 | every emitted line of two or more words measures at most the budget |
| `Wrap.EmptyFirstLine` | src/module.ts:17-22 | the first line holds no words exactly when " " + first word is too wide; that word then starts the second line, whole. A drawn "" first line also comes from an empty first word, which the split yields when the text is empty or starts with whitespace |
| `Wrap.OneWordGroups` | src/module.ts:16-27 | a single word gets one line, or an empty line and then itself when the break test fires on an empty line |
| `Wrap.OneWordLines` | src/module.ts:16-27 | the lines emitted for a single word are the word alone, or "" and then the word |
| `Wrap.EmptyTextLines` | src/module.ts:11-27 | the empty text gives one empty line, or two empty lines when " " measures wider than the budget |
| `Wrap.MoreWordsNoFewerLines` | src/module.ts:16-27 | appending words never reduces the number of lines |
| `Wrap.ThreeWordsThreeLines` | src/module.ts:16-27 | worked example: at 10 px per character and a 100 px budget, three five-letter words take three lines |
| `Wrap.OverWideFirstWord` | src/module.ts:17-22 | worked example: a ten-letter word measured as " " + word (110 px) gets an empty line in front of it |
| `Wrap.MaxWidth` | src/module.ts:13 | the budget is 85% of the canvas width (20 × budget = 17 × width): never negative, at most the width, and strictly less than it on a canvas of positive width |
| `Wrap.EvenRows` | src/module.ts:29-35 | rows on the centre column, starting at height/2 + lineHeight/2 - (n/2)·lineHeight and one line height apart, form a centred block |
| `Wrap.OneWordText` | src/module.ts:11-35 | a text that splits into a single word is drawn as that word alone, or as an empty line and then the word when " " + word is too wide |
| `Wrap.Place` | src/module.ts:29-35 | one draw call per line, in order, with that line's text, and the block centred (see `Centred`) |
| `Wrap.RowFormula` | src/module.ts:30-34 | in any centred block of n lines, line i sits at height/2 + lineHeight/2 - (n/2)·lineHeight + i·lineHeight |
| `Wrap.PlaceCharacterised` | src/module.ts:29-35 | the placement is the only one with these texts that is centred: x at half the width, lines one line height apart, first and last baselines symmetric about half the height |
| `Wrap.WrapText` | src/module.ts:10-36 | the draw calls are one per greedy line of the split words, at least one, never losing a word, each text the line's words joined by spaces, centred as a block |
| `Image.Assign` | src/module.ts:68-78 | each field of the merge is the supplied option when there is one, and the base value otherwise |
| `Image.AssignExtremes` | src/module.ts:68-78 | merging no options keeps the base; merging every option replaces it |
| `Image.Settle` | src/module.ts:68-78 | each supplied option wins and each missing one takes its default: 40, Arial, #999, #eee, radial, #999, 4, 400, 400 |
| `Image.Label` | src/module.ts:81 | the fallback label holds no whitespace, and the width and the height can be read back from it |
| `Image.LabelExact` | src/module.ts:81 | a string reads back as a given width and height exactly when it is their label, so the label is the only text naming them (no leading zeros, nothing extra) |
| `Image.ResolveText` | src/module.ts:80-82 | non-empty text is kept; null, undefined and "" become exactly the label of the merged width and height, from which they can be read back; the result is never empty |
| `Image.GradientGeometry` | src/module.ts:94-98 | linear runs down the vertical centre line from top to bottom; radial joins two circles about the centre, the outer one with the height as radius and the inner one a tenth of that |
| `Image.StopOffset` | src/module.ts:101-105 | the offset of colour `index` of `count` is 0 for the first colour and satisfies (count - 1) × offset = index, so it lies in [0, 1] |
| `Image.OffsetStep` | src/module.ts:100-107 | consecutive stop offsets differ by 1/(n-1) and no offset exceeds 1 |
| `Image.Stops` | src/module.ts:100-108 | one stop per colour, in colour order, offsets from 0 at the first to 1 at the last in equal steps |
| `Image.StopsIncreasing` | src/module.ts:100-108 | a later colour has a strictly larger offset |
| `Image.StopsOrdered` | src/module.ts:100-108 | every offset lies in [0, 1] and the offsets strictly increase |
| `Image.ResolveFill` | src/module.ts:87-113 | a string fill is used as given; an array of at most one colour gives that colour, or "#ccc" when it is missing or empty; two or more colours give a gradient of the chosen kind whose stops are exactly `Stops` of the colours: one per colour, in order, from offset 0 to offset 1 |
| `Image.OneColorArray` | src/module.ts:87-89 | an array holding one non-empty colour fills exactly as that colour string |
| `Image.BorderRect` | src/module.ts:116-124 | the border rectangle is inset by half the border width on every side |
| `Image.FontString` | src/module.ts:127 | the font string reads back as the font size followed by "px " and the family |
| `Image.FontExact` | src/module.ts:127 | a string reads back as a given size and family exactly when it is their font string, so the font string is the only text naming them |
| `Image.InFont` | src/module.ts:127 | the measure the wrap sees gives, for every line, the surface's width of that line in the font string set before the wrap |
| `Image.DefaultFont` | src/module.ts:69-70 | the default font string is "40px Arial" |
| `Image.Render` | src/module.ts:84-130 | the plan follows the settings (canvas size, fill, full-canvas background rectangle, border, colours, font, text alignment "center" and baseline "middle"); the line height is 13/10 of the font size; its lines are the greedy wrap of the text's words in the plan's font, at least one line, losing no word, and centred |
| `Image.OneWordPlan` | src/module.ts:130 | a one-word text is drawn on one line, or after an empty line when " " + word is too wide |
| `Image.OneWordImage` | src/module.ts:80-130 | whenever the text the entry point settles on (the given text, or the label) is a single word, the plan draws that word alone, or after an empty line when " " + word is too wide |
| `Image.DefaultImage` | src/module.ts:67-130 | the plan's canvas size, fill, border, colours, font and line height are the supplied options or the defaults; the background rectangle covers the canvas and the border rectangle is inset by half the border width; the text is aligned "center" on a "middle" baseline |
| `Image.TextDrawn` | src/module.ts:80-130 | a non-empty text is drawn as its own words: the greedy wrap in the plan's font against 85% of the canvas width, at least one line, losing no word, centred |
| `Image.FallbackLabelDrawn` | src/module.ts:80-82 | with no text, the label is drawn as one whole word, alone or after an empty line |
| `Image.DefaultSettingsPlan` | src/module.ts:68-130 | with no options: a 400 × 400 canvas filled #eee, a #999 border 4 px wide at (2, 2, 396, 396), and #999 "40px Arial" text on 52 px lines |
| `Image.MissingTextIsEmptyText` | src/module.ts:80 | null or undefined text and "" give the same plan |
| `Image.DefaultLabel` | src/module.ts:67-82 | with no text and no options, the label is "400x400" |
| `Image.BannerLabel` | src/module.test.ts:89-94 | with no text at 728 × 90, the label is "728x90" |
| `Numerals.Decimal` | src/module.ts:81 | the decimal text of a whole number is non-empty, all digits, with no leading zero |
| `Numerals.ValueOfDecimal` | src/module.ts:81 | reading the decimal text back gives the number |
| `Numerals.DecimalOfValue` | src/module.ts:81 | printing the number a digit string without leading zeros denotes gives that string back |

## Left out

- The drawing surface (node-canvas) is left out: canvas creation, the pixels of `fillRect`, `strokeRect` and gradients, `toDataURL` and its PNG/base64 encoding. Its calls are recorded as plan fields, and `measureText` is the `measure` parameter.
- Floating point: all arithmetic is on exact reals, so IEEE-754 rounding of 0.85, 1.3 and the divisions is not modelled.
- `width`, `height` and `fontSize` are whole numbers. JavaScript's printing of fractional, negative or non-finite numbers in the label and font string is not modelled.
- Numerals.Decimal: gives the plain digits of every whole number. JavaScript numbers are doubles: `${n}` switches to exponent form (`1e+21`) from 10^21 up, and whole numbers above 2^53 are not all representable. The label and font string match the code only for sizes below those bounds.
- An option explicitly set to `undefined` overrides the default under `Object.assign`. The model treats it as left out.
- `gradientType` is `radial` or `linear`. Any other string also falls to the radial branch in the code; the model has no such strings.
- `fillColor` arrays hold strings. Falsy non-string elements (`null`, `0`) are not modelled; the empty string is.
- Image.DefaultImage: its contract covers the settings part of the plan, in terms of the options, including the background and border rectangles. The text lines are stated by `Image.TextDrawn` and `Image.FallbackLabelDrawn`.
- Strings are sequences of Unicode scalar values, while a JavaScript string is a sequence of UTF-16 code units, so a text holding a lone surrogate cannot be written in the model. No modelled behaviour depends on this: every `\s` character lies in the Basic Multilingual Plane, and `measure` is a parameter.
- Errors raised by the drawing surface are not modelled. For example, the canvas's `addColorStop` rejects a colour string it cannot parse, such as `""` in a list of two or more colours (src/module.ts:107), so `defaultImage` throws there, while `Image.ResolveFill` and `Image.Render` return a plan.
- The tests' snapshot and image-dimension checks need the renderer, so they are left out. The build tooling and the compiled copies of the source are left out too.

=== FILE: image.dfy ===
/**
 `defaultImage(text, options)` as a draw plan: the settings it resolves and
 every argument it hands to the drawing surface, in place of the pixels.
 The surface's `measureText` is the parameter `measure`, a function of the
 font string in effect and the text measured.
 */
module Image {
  import opened Wrappers
  import opened Text
  import opened Numerals
  import Wrap

  datatype GradientType = Radial | Linear

  /** `fillColor`: one colour string, or an array of colour strings. */
  datatype FillColor = OneColor(color: string) | ColorList(colors: seq<string>)

  /** `ExpectedConfigObject`: every option may be left out. */
  datatype Options = Options(
    fontSize: Option<nat>,
    font: Option<string>,
    textColor: Option<string>,
    fillColor: Option<FillColor>,
    gradientType: Option<GradientType>,
    borderColor: Option<string>,
    borderWidth: Option<real>,
    width: Option<nat>,
    height: Option<nat>)

  /** The merged `settings` object: every option has a value. */
  datatype Settings = Settings(
    fontSize: nat,
    font: string,
    textColor: string,
    fillColor: FillColor,
    gradientType: GradientType,
    borderColor: string,
    borderWidth: real,
    width: nat,
    height: nat)

  const NoOptions: Options := Options(None, None, None, None, None, None, None, None, None)

  /** The object literal `defaultImage` merges the options into. */
  const Defaults: Settings := Settings(40, "Arial", "#999", OneColor("#eee"), Radial, "#999", 4.0, 400, 400)

  /** Every option supplied, with the values of `s`. */
  function Supplied(s: Settings): Options {
    Options(Some(s.fontSize), Some(s.font), Some(s.textColor), Some(s.fillColor),
            Some(s.gradientType), Some(s.borderColor), Some(s.borderWidth),
            Some(s.width), Some(s.height))
  }

  /** `Object.assign(base, options)`, shallow: each supplied option replaces
      the value of `base`, and each one left out keeps it. */
  function Assign(base: Settings, options: Options): (r: Settings)
    ensures r.fontSize == (if options.fontSize.Some? then options.fontSize.value else base.fontSize)
    ensures r.font == (if options.font.Some? then options.font.value else base.font)
    ensures r.textColor == (if options.textColor.Some? then options.textColor.value else base.textColor)
    ensures r.fillColor == (if options.fillColor.Some? then options.fillColor.value else base.fillColor)
    ensures r.gradientType == (if options.gradientType.Some? then options.gradientType.value else base.gradientType)
    ensures r.borderColor == (if options.borderColor.Some? then options.borderColor.value else base.borderColor)
    ensures r.borderWidth == (if options.borderWidth.Some? then options.borderWidth.value else base.borderWidth)
    ensures r.width == (if options.width.Some? then options.width.value else base.width)
    ensures r.height == (if options.height.Some? then options.height.value else base.height)
  {
    Settings(
      options.fontSize.GetOr(base.fontSize),
      options.font.GetOr(base.font),
      options.textColor.GetOr(base.textColor),
      options.fillColor.GetOr(base.fillColor),
      options.gradientType.GetOr(base.gradientType),
      options.borderColor.GetOr(base.borderColor),
      options.borderWidth.GetOr(base.borderWidth),
      options.width.GetOr(base.width),
      options.height.GetOr(base.height))
  }

  /** Assigning nothing keeps the base; assigning every option replaces it. */
  lemma AssignExtremes(base: Settings, s: Settings)
    ensures Assign(base, NoOptions) == base
    ensures Assign(base, Supplied(s)) == s
  {
  }

  /** The settings of `defaultImage`: each option the caller supplies wins,
      each one left out takes its documented default. */
  function Settle(options: Options): (s: Settings)
    ensures s.fontSize == (if options.fontSize.Some? then options.fontSize.value else 40)
    ensures s.font == (if options.font.Some? then options.font.value else "Arial")
    ensures s.textColor == (if options.textColor.Some? then options.textColor.value else "#999")
    ensures s.fillColor == (if options.fillColor.Some? then options.fillColor.value else OneColor("#eee"))
    ensures s.gradientType == (if options.gradientType.Some? then options.gradientType.value else Radial)
    ensures s.borderColor == (if options.borderColor.Some? then options.borderColor.value else "#999")
    ensures s.borderWidth == (if options.borderWidth.Some? then options.borderWidth.value else 4.0)
    ensures s.width == (if options.width.Some? then options.width.value else 400)
    ensures s.height == (if options.height.Some? then options.height.value else 400)
  {
    Assign(Defaults, options)
  }

  // ----- Fallback text -----

  /** `${width}x${height}`: a single word, digits, an "x", digits, from
      which the width and the height can be read back. */
  function Label(width: nat, height: nat): (r: string)
    ensures NoSpace(r)
    ensures ParseLabel(r) == Some((width, height))
  {
    var w := Decimal(width);
    var h := Decimal(height);
    var r := w + ("x" + h);
    assert NoSpace(r) by {
      forall i | 0 <= i < |r|
        ensures !IsSpace(r[i])
      {
        if i < |w| {
          assert r[i] == w[i];
        } else if i > |w| {
          assert r[i] == h[i - |w| - 1];
        }
      }
    }
    LeadingDigitsOf(w, "x" + h);
    assert r[..|w|] == w && r[|w| + 1..] == h;
    ValueOfDecimal(width);
    ValueOfDecimal(height);
    r
  }

  /** Reads "<digits>x<digits>" back into its two numbers; each run of digits
      must be written as `${n}` writes it, with no leading zero. */
  function ParseLabel(s: string): Option<(nat, nat)> {
    var k := LeadingDigits(s);
    if 0 < k && k + 1 < |s| && s[k] == 'x' && Canonical(s[..k]) && Canonical(s[k + 1..]) then
      Some((Value(s[..k]), Value(s[k + 1..])))
    else
      None
  }

  /** A string reads back as a width and a height exactly when it is their label. */
  lemma LabelExact(s: string, width: nat, height: nat)
    ensures ParseLabel(s) == Some((width, height)) <==> s == Label(width, height)
  {
    if ParseLabel(s) == Some((width, height)) {
      var k := LeadingDigits(s);
      DecimalOfValue(s[..k]);
      DecimalOfValue(s[k + 1..]);
      assert s == s[..k] + ("x" + s[k + 1..]);
    }
  }

  /** The text drawn: the caller's text, or the label when it is null,
      undefined or empty. The result is never empty. */
  function ResolveText(text: Option<string>, s: Settings): (r: string)
    ensures |r| > 0
    ensures text.Some? && |text.value| > 0 ==> r == text.value
    ensures text.None? || |text.value| == 0 ==> r == Label(s.width, s.height)
    ensures text.None? || |text.value| == 0 ==> ParseLabel(r) == Some((s.width, s.height))
  {
    if text.None? || |text.value| == 0 then
      Label(s.width, s.height)
    else
      text.value
  }

  // ----- Background fill -----

  /** The arguments of `createLinearGradient` or `createRadialGradient`. */
  datatype Geometry =
    | LinearAxis(x0: real, y0: real, x1: real, y1: real)
    | RadialCircles(x0: real, y0: real, r0: real, x1: real, y1: real, r1: real)

  /** One `addColorStop(offset, color)` call. */
  datatype Stop = Stop(offset: real, color: string)

  /** The value given to `context.fillStyle` before the background is filled. */
  datatype FillStyle = Solid(color: string) | Gradient(geometry: Geometry, stops: seq<Stop>)

  /** The gradient for a canvas of `width` × `height` pixels: a linear one runs
      down the vertical centre line from top to bottom; a radial one joins two
      circles about the canvas centre, the inner one a tenth of the outer,
      whose radius is the height. */
  function GradientGeometry(kind: GradientType, width: nat, height: nat): (g: Geometry)
    ensures kind == Linear <==> g.LinearAxis?
    ensures g.LinearAxis? ==>
      && g.x0 == g.x1 && 2.0 * g.x0 == width as real
      && g.y0 == 0.0 && g.y1 == height as real
    ensures g.RadialCircles? ==>
      && g.x0 == g.x1 && 2.0 * g.x0 == width as real
      && g.y0 == g.y1 && 2.0 * g.y0 == height as real
      && g.r1 == height as real && 10.0 * g.r0 == g.r1
  {
    if kind == Linear then
      LinearAxis(width as real / 2.0, 0.0, width as real / 2.0, height as real)
    else
      RadialCircles(width as real / 2.0, height as real / 2.0, height as real * 0.1,
                    width as real / 2.0, height as real / 2.0, height as real)
  }

  /** The offset given to colour `index` of `count`: the index itself for
      index 0, `index / (count - 1)` after it. */
  function StopOffset(index: nat, count: nat): (r: real)
    requires index < count
    ensures index == 0 ==> r == 0.0
    ensures (count - 1) as real * r == index as real
    ensures 0.0 <= r <= 1.0
  {
    if index > 0 then
      Fraction(index, count - 1);
      index as real / (count - 1) as real
    else
      index as real
  }

  /** A fraction i / n with 0 < i <= n lies in (0, 1], and n times it is i. */
  lemma Fraction(i: nat, n: nat)
    requires 0 < i <= n
    ensures n as real * (i as real / n as real) == i as real
    ensures 0.0 < i as real / n as real <= 1.0
  {
    var r := i as real / n as real;
    assert n as real * r == i as real;
  }

  /** Offsets grow by the same step from 0 at the first colour to 1 at the last. */
  lemma OffsetStep(index: nat, count: nat)
    requires 0 < index < count
    ensures StopOffset(index, count) - StopOffset(index - 1, count) == 1.0 / (count - 1) as real
    ensures StopOffset(index, count) <= 1.0
  {
    var d := (count - 1) as real;
    assert d >= index as real;
    if index > 1 {
      assert index as real / d - (index - 1) as real / d == (index as real - (index - 1) as real) / d;
    }
  }

  /** The colour stops: one per colour, in colour order, the offsets rising
      evenly from 0 to 1. */
  function Stops(colors: seq<string>): (r: seq<Stop>)
    ensures |r| == |colors|
    ensures forall i :: 0 <= i < |r| ==> r[i].color == colors[i]
    ensures |r| > 0 ==> r[0].offset == 0.0
    ensures |r| >= 2 ==> r[|r| - 1].offset == 1.0
    ensures forall i :: 1 <= i < |r| ==> r[i].offset - r[i - 1].offset == 1.0 / (|r| - 1) as real
  {
    var n := |colors|;
    var r := seq(n, i requires 0 <= i < n => Stop(StopOffset(i, n), colors[i]));
    assert forall i :: 1 <= i < n ==> r[i].offset - r[i - 1].offset == 1.0 / (n - 1) as real by {
      forall i | 1 <= i < n
        ensures r[i].offset - r[i - 1].offset == 1.0 / (n - 1) as real
      {
        OffsetStep(i, n);
      }
    }
    assert n >= 2 ==> r[n - 1].offset == 1.0;
    r
  }

  /** Later colours get larger offsets. */
  lemma {:induction false} StopsIncreasing(colors: seq<string>, i: nat, j: nat)
    requires i < j < |colors|
    ensures Stops(colors)[i].offset < Stops(colors)[j].offset
    decreases j
  {
    var r := Stops(colors);
    assert 1.0 / (|r| - 1) as real > 0.0;
    if j > i + 1 {
      StopsIncreasing(colors, i, j - 1);
    }
  }

  /** The offsets are strictly increasing and lie between 0 and 1. */
  lemma StopsOrdered(colors: seq<string>, i: nat, j: nat)
    requires i < j < |colors|
    ensures 0.0 <= Stops(colors)[i].offset < Stops(colors)[j].offset <= 1.0
  {
    StopsIncreasing(colors, i, j);
    if i > 0 {
      StopsIncreasing(colors, 0, i);
    }
    if j < |colors| - 1 {
      StopsIncreasing(colors, j, |colors| - 1);
    }
  }

  /** `fillStyle` for the background: a colour string as given; an array of at
      most one colour as that colour, or "#ccc" when it is missing or empty;
      two or more colours as a gradient through them. */
  function ResolveFill(fill: FillColor, kind: GradientType, width: nat, height: nat): (r: FillStyle)
    ensures fill.OneColor? ==> r == Solid(fill.color)
    ensures fill.ColorList? && |fill.colors| <= 1 ==>
      r == Solid(if |fill.colors| == 1 && fill.colors[0] != "" then fill.colors[0] else "#ccc")
    ensures fill.ColorList? && |fill.colors| >= 2 ==>
      && r.Gradient?
      && r.geometry == GradientGeometry(kind, width, height)
      && |r.stops| == |fill.colors|
      && (forall i :: 0 <= i < |r.stops| ==> r.stops[i].color == fill.colors[i])
      && r.stops[0].offset == 0.0 && r.stops[|r.stops| - 1].offset == 1.0
      && r.stops == Stops(fill.colors)
  {
    match fill
    case OneColor(c) => Solid(c)
    case ColorList(cs) =>
      if |cs| <= 1 then
        Solid(if |cs| > 0 && cs[0] != "" then cs[0] else "#ccc")
      else
        Gradient(GradientGeometry(kind, width, height), Stops(cs))
  }

  /** An array holding one non-empty colour fills exactly as that colour string. */
  lemma OneColorArray(c: string, kind: GradientType, width: nat, height: nat)
    requires c != ""
    ensures ResolveFill(ColorList([c]), kind, width, height) == ResolveFill(OneColor(c), kind, width, height)
  {
  }

  // ----- Border, font, line height -----

  /** A rectangle `(x, y, w, h)` as `fillRect` and `strokeRect` take it. */
  datatype Rect = Rect(x: real, y: real, w: real, h: real)

  /** The `strokeRect` rectangle: inset by half the border width on every
      side, so the stroke lies centred on the canvas edge. */
  function BorderRect(width: nat, height: nat, borderWidth: real): (r: Rect)
    ensures r.x == borderWidth / 2.0 && r.y == borderWidth / 2.0
    ensures width as real - (r.x + r.w) == borderWidth / 2.0
    ensures height as real - (r.y + r.h) == borderWidth / 2.0
  {
    var offset := borderWidth / 2.0;
    Rect(offset, offset, width as real - offset * 2.0, height as real - offset * 2.0)
  }

  /** `${fontSize}px ${font}`. */
  function FontString(size: nat, family: string): (r: string)
    ensures ParseFont(r) == Some((size, family))
  {
    var d := Decimal(size);
    var r := d + "px " + family;
    LeadingDigitsOf(d, "px " + family);
    assert r == d + ("px " + family);
    assert r[..|d|] == d && r[|d|..|d| + 3] == "px " && r[|d| + 3..] == family;
    ValueOfDecimal(size);
    r
  }

  /** Reads "<digits>px <family>" back into the size and the family; the
      size must be written as `${n}` writes it, with no leading zero. */
  function ParseFont(s: string): Option<(nat, string)> {
    var k := LeadingDigits(s);
    if 0 < k && k + 3 <= |s| && s[k..k + 3] == "px " && Canonical(s[..k]) then
      Some((Value(s[..k]), s[k + 3..]))
    else
      None
  }

  /** A string reads back as a size and a family exactly when it is their font string. */
  lemma FontExact(s: string, size: nat, family: string)
    ensures ParseFont(s) == Some((size, family)) <==> s == FontString(size, family)
  {
    if ParseFont(s) == Some((size, family)) {
      var k := LeadingDigits(s);
      DecimalOfValue(s[..k]);
      assert s == s[..k] + ("px " + s[k + 3..]);
    }
  }

  // ----- The plan -----

  /** `measureText(text).width` while `context.font` is `font`. */
  type FontMeasure = (string, string) -> real

  /** The measure `wrapText` sees once `context.font` has been set to `font`. */
  function InFont(measure: FontMeasure, font: string): (r: Wrap.Measure)
    ensures forall line :: r(line) == measure(font, line)
  {
    (line: string) => measure(font, line)
  }

  /** What `defaultImage` asks of the drawing surface, in order: a canvas of
      `width` × `height`, the background filled over `backgroundRect`, the
      border stroked, then the text lines drawn with the text colour, font and
      alignment. */
  datatype Plan = Plan(
    width: nat,
    height: nat,
    background: FillStyle,
    backgroundRect: Rect,
    borderColor: string,
    borderWidth: real,
    border: Rect,
    textColor: string,
    font: string,
    textAlign: string,
    textBaseline: string,
    lineHeight: real,
    lines: seq<Wrap.Draw>)

  /** The body of `defaultImage` after the merge and the choice of text, for
      settings `s`: the canvas, fill, border and font follow the settings, and
      the text lines are the words of `text`, wrapped greedily against 85% of
      the canvas width as measured in the plan's font, each centred
      horizontally, one line height apart, the block centred vertically. */
  function Render(text: string, s: Settings, measure: FontMeasure): (p: Plan)
    ensures && p.width == s.width && p.height == s.height
            && p.background == ResolveFill(s.fillColor, s.gradientType, s.width, s.height)
            && p.backgroundRect == Rect(0.0, 0.0, s.width as real, s.height as real)
            && p.border == BorderRect(s.width, s.height, s.borderWidth)
            && p.borderColor == s.borderColor && p.borderWidth == s.borderWidth
            && p.textColor == s.textColor
            && p.font == FontString(s.fontSize, s.font)
            && ParseFont(p.font) == Some((s.fontSize, s.font))
            && p.textAlign == "center" && p.textBaseline == "middle"
            && 10.0 * p.lineHeight == 13.0 * s.fontSize as real
    ensures var words := Split(text);
      var gs := Wrap.Groups(InFont(measure, p.font), Wrap.MaxWidth(p.width), words);
      && |p.lines| == |gs| >= 1
      && Flatten(gs) == words
      && forall i :: 0 <= i < |p.lines| ==> p.lines[i].text == Join(gs[i])
    ensures Wrap.Centred(p.lines, p.width as real, p.height as real, p.lineHeight)
  {
    var font := FontString(s.fontSize, s.font);
    var lineHeight := s.fontSize as real * 1.3;
    var m := InFont(measure, font);
    var lines := Wrap.WrapText(m, s.width, s.height, text, lineHeight);
    var p := Plan(
      s.width, s.height,
      ResolveFill(s.fillColor, s.gradientType, s.width, s.height),
      Rect(0.0, 0.0, s.width as real, s.height as real),
      s.borderColor, s.borderWidth, BorderRect(s.width, s.height, s.borderWidth),
      s.textColor, font, "center", "middle", lineHeight,
      lines);
    assert p.lines == lines && p.font == font && p.width == s.width && p.height == s.height;
    assert p.lineHeight == lineHeight;
    p
  }

  /** `defaultImage(text, options)`, up to the raster encoding: the options
      are merged over the defaults, then rendered. */
  function DefaultImage(text: Option<string>, options: Options, measure: FontMeasure): (p: Plan)
    ensures p.width == options.width.GetOr(400) && p.height == options.height.GetOr(400)
    ensures p.background ==
      ResolveFill(options.fillColor.GetOr(OneColor("#eee")), options.gradientType.GetOr(Radial), p.width, p.height)
    ensures p.backgroundRect == Rect(0.0, 0.0, p.width as real, p.height as real)
    ensures p.borderColor == options.borderColor.GetOr("#999") && p.borderWidth == options.borderWidth.GetOr(4.0)
    ensures p.border == BorderRect(p.width, p.height, p.borderWidth)
    ensures p.textColor == options.textColor.GetOr("#999")
    ensures ParseFont(p.font) == Some((options.fontSize.GetOr(40), options.font.GetOr("Arial")))
    ensures p.textAlign == "center" && p.textBaseline == "middle"
    ensures 10.0 * p.lineHeight == 13.0 * options.fontSize.GetOr(40) as real
  {
    var s := Settle(options);
    Render(ResolveText(text, s), s, measure)
  }

  /** A non-empty text is drawn as its own words, wrapped greedily in the
      plan's font against 85% of the canvas width, centred. */
  lemma TextDrawn(text: string, options: Options, measure: FontMeasure)
    requires |text| > 0
    ensures var p := DefaultImage(Some(text), options, measure);
      var gs := Wrap.Groups(InFont(measure, p.font), Wrap.MaxWidth(p.width), Split(text));
      && |p.lines| == |gs| >= 1
      && Flatten(gs) == Split(text)
      && (forall i :: 0 <= i < |p.lines| ==> p.lines[i].text == Join(gs[i]))
      && Wrap.Centred(p.lines, p.width as real, p.height as real, p.lineHeight)
  {
    var s := Settle(options);
    assert ResolveText(Some(text), s) == text;
    assert DefaultImage(Some(text), options, measure) == Render(text, s, measure);
  }

  /** Null, undefined and the empty string all draw the same image. */
  lemma MissingTextIsEmptyText(options: Options, measure: FontMeasure)
    ensures DefaultImage(None, options, measure) == DefaultImage(Some(""), options, measure)
  {
    var s := Settle(options);
    assert ResolveText(None, s) == ResolveText(Some(""), s);
  }

  /** A text that is a single word is drawn alone on one line, or on a second
      line behind an empty first line when " " + word measures wider than 85%
      of the canvas. */
  lemma OneWordPlan(text: string, s: Settings, measure: FontMeasure, w: string)
    requires Split(text) == [w]
    ensures var p := Render(text, s, measure);
      if Wrap.Breaks(InFont(measure, p.font), Wrap.MaxWidth(p.width), [], w) then
        |p.lines| == 2 && p.lines[0].text == "" && p.lines[1].text == w
      else
        |p.lines| == 1 && p.lines[0].text == w
  {
    var font := FontString(s.fontSize, s.font);
    Wrap.OneWordText(InFont(measure, font), s.width, s.height, text, s.fontSize as real * 1.3, w);
  }

  /** With no text, the plan draws the label "<width>x<height>" as one word. */
  lemma FallbackLabelDrawn(options: Options, measure: FontMeasure)
    ensures var s := Settle(options);
      var p := DefaultImage(None, options, measure);
      var tag := Label(s.width, s.height);
      if Wrap.Breaks(InFont(measure, p.font), Wrap.MaxWidth(p.width), [], tag) then
        |p.lines| == 2 && p.lines[0].text == "" && p.lines[1].text == tag
      else
        |p.lines| == 1 && p.lines[0].text == tag
  {
    var s := Settle(options);
    var tag := Label(s.width, s.height);
    assert ResolveText(None, s) == tag;
    SplitWord(tag);
    OneWordImage(None, options, measure, tag);
  }

  /** `OneWordPlan` at the entry point: a text that resolves to a single word
      is drawn alone, or behind an empty line. */
  lemma OneWordImage(text: Option<string>, options: Options, measure: FontMeasure, w: string)
    requires Split(ResolveText(text, Settle(options))) == [w]
    ensures var p := DefaultImage(text, options, measure);
      if Wrap.Breaks(InFont(measure, p.font), Wrap.MaxWidth(p.width), [], w) then
        |p.lines| == 2 && p.lines[0].text == "" && p.lines[1].text == w
      else
        |p.lines| == 1 && p.lines[0].text == w
  {
    var s := Settle(options);
    var t := ResolveText(text, s);
    assert DefaultImage(text, options, measure) == Render(t, s, measure);
    OneWordPlan(t, s, measure, w);
  }

  /** With no options the canvas is 400 × 400, filled "#eee", bordered "#999"
      4 pixels wide, and the text is "#999" 40px Arial on 52 pixel lines. */
  lemma DefaultSettingsPlan(text: Option<string>, measure: FontMeasure)
    ensures var p := DefaultImage(text, NoOptions, measure);
      && p.width == 400 && p.height == 400
      && p.background == Solid("#eee")
      && p.backgroundRect == Rect(0.0, 0.0, 400.0, 400.0)
      && p.borderColor == "#999" && p.borderWidth == 4.0
      && p.border == Rect(2.0, 2.0, 396.0, 396.0)
      && p.textColor == "#999" && p.font == "40px Arial" && p.lineHeight == 52.0
  {
    var s := Settle(NoOptions);
    assert s == Defaults;
    var p := Render(ResolveText(text, s), s, measure);
    assert p == DefaultImage(text, NoOptions, measure);
    DefaultFont();
  }

  /** The default font string is "40px Arial". */
  lemma DefaultFont()
    ensures FontString(Defaults.fontSize, Defaults.font) == "40px Arial"
  {
    assert Decimal(4) == "4" && Decimal(40) == "40";
  }

  /** With no options the fallback label is "400x400". */
  lemma DefaultLabel()
    ensures ResolveText(None, Settle(NoOptions)) == "400x400"
  {
    assert Decimal(4) == "4";
    assert Decimal(40) == "40";
    assert Decimal(400) == "400";
  }

  /** A 728 × 90 image with no text is labelled "728x90". */
  lemma BannerLabel()
    ensures ResolveText(None, Settle(NoOptions.(width := Some(728), height := Some(90)))) == "728x90"
  {
    assert Decimal(7) == "7" && Decimal(72) == "72" && Decimal(728) == "728";
    assert Decimal(9) == "9" && Decimal(90) == "90";
  }
}

=== FILE: numerals.dfy ===
/**
 Decimal text of non-negative integers, as a JavaScript template literal
 `${n}` prints an integral number below 10^21, and the matching reading back.
 */
module Numerals {

  predicate IsDigit(c: char) {
    '0' <= c <= '9'
  }

  predicate AllDigits(s: string) {
    forall i :: 0 <= i < |s| ==> IsDigit(s[i])
  }

  function DigitChar(d: nat): (c: char)
    requires d < 10
    ensures IsDigit(c)
  {
    ('0' as int + d) as char
  }

  function DigitValue(c: char): (d: nat)
    requires IsDigit(c)
    ensures d < 10 && DigitChar(d) == c
  {
    c as int - '0' as int
  }

  /** Decimal text as `${n}` prints it: at least one digit, and no leading
      zero unless the number is zero itself. */
  predicate Canonical(s: string) {
    |s| >= 1 && AllDigits(s) && (|s| == 1 || s[0] != '0')
  }

  /** `${n}` for an integral n >= 0: its decimal digits, without leading zeros. */
  function Decimal(n: nat): (r: string)
    ensures Canonical(r)
    decreases n
  {
    if n < 10 then [DigitChar(n)] else Decimal(n / 10) + [DigitChar(n % 10)]
  }

  /** The number a string of decimal digits denotes. */
  function Value(s: string): nat
    requires AllDigits(s)
    decreases |s|
  {
    if |s| == 0 then 0 else Value(s[..|s| - 1]) * 10 + DigitValue(s[|s| - 1])
  }

  /** The length of the longest prefix of `s` made of digits. */
  function LeadingDigits(s: string): (k: nat)
    ensures k <= |s| && AllDigits(s[..k])
    ensures k < |s| ==> !IsDigit(s[k])
    decreases |s|
  {
    if |s| > 0 && IsDigit(s[0]) then 1 + LeadingDigits(s[1..]) else 0
  }

  /** Reading the digits of a number back gives the number. */
  lemma {:induction false} ValueOfDecimal(n: nat)
    ensures Value(Decimal(n)) == n
    decreases n
  {
    if n >= 10 {
      var d := Decimal(n);
      ValueOfDecimal(n / 10);
      assert d[..|d| - 1] == Decimal(n / 10);
    }
  }

  /** Digits that do not start with '0' denote a positive number. */
  lemma {:induction false} ValuePositive(s: string)
    requires |s| >= 1 && AllDigits(s) && s[0] != '0'
    ensures Value(s) >= 1
    decreases |s|
  {
    if |s| > 1 {
      ValuePositive(s[..|s| - 1]);
    }
  }

  /** Printing the number a canonical digit string denotes gives the string
      back: canonical decimal text and numbers are in one-to-one correspondence. */
  lemma {:induction false} DecimalOfValue(s: string)
    requires Canonical(s)
    ensures Decimal(Value(s)) == s
    decreases |s|
  {
    var n := |s|;
    if n > 1 {
      var front := s[..n - 1];
      var d := DigitValue(s[n - 1]);
      assert Value(s) == Value(front) * 10 + d;
      ValuePositive(front);
      DecimalOfValue(front);
      assert Value(s) / 10 == Value(front) && Value(s) % 10 == d;
      assert s == front + [s[n - 1]];
    }
  }

  /** The digits in front of a non-digit are exactly the leading digits. */
  lemma {:induction false} LeadingDigitsOf(d: string, rest: string)
    requires AllDigits(d)
    requires |rest| == 0 || !IsDigit(rest[0])
    ensures LeadingDigits(d + rest) == |d|
    decreases |d|
  {
    if |d| > 0 {
      assert (d + rest)[1..] == d[1..] + rest;
      LeadingDigitsOf(d[1..], rest);
    } else {
      assert d + rest == rest;
    }
  }
}

=== FILE: text.dfy ===
/**
 String operations the layout code relies on, with JavaScript's meaning:
 the `\s` character class, `String.prototype.split` by a regular expression
 that matches runs of whitespace, `String.prototype.trim`, and
 `Array.prototype.join(" ")`.
 */
module Text {

  /** The characters `\s` matches in an ECMAScript regular expression
      (WhiteSpace and LineTerminator); `trim` strips exactly the same set. */
  predicate IsSpace(c: char) {
    || c == '\t' || c == '\n' || c == '\U{000B}' || c == '\U{000C}' || c == '\r'
    || c == ' ' || c == '\U{00A0}' || c == '\U{1680}'
    || ('\U{2000}' <= c <= '\U{200A}')
    || c == '\U{2028}' || c == '\U{2029}' || c == '\U{202F}' || c == '\U{205F}'
    || c == '\U{3000}' || c == '\U{FEFF}'
  }

  /** A string holding no whitespace at all. */
  predicate NoSpace(s: string) {
    forall i :: 0 <= i < |s| ==> !IsSpace(s[i])
  }

  /** The number of characters in the words of `ws`, all together. */
  function Letters(ws: seq<string>): nat {
    if |ws| == 0 then 0 else |ws[0]| + Letters(ws[1..])
  }

  /** `ws.join(" ")`: the words separated by single spaces; the empty list joins to "". */
  function Join(ws: seq<string>): string
  {
    if |ws| == 0 then ""
    else if |ws| == 1 then ws[0]
    else ws[0] + " " + Join(ws[1..])
  }

  /** Concatenation of a list of word lists, in order. */
  function Flatten(gs: seq<seq<string>>): seq<string>
  {
    if |gs| == 0 then [] else Flatten(gs[..|gs| - 1]) + gs[|gs| - 1]
  }

  /** `trimStart`: drops the leading whitespace and nothing else. */
  function TrimStart(s: string): (r: string)
    ensures |r| <= |s| && r == s[|s| - |r|..]
    ensures forall i :: 0 <= i < |s| - |r| ==> IsSpace(s[i])
    ensures |r| > 0 ==> !IsSpace(r[0])
  {
    if |s| > 0 && IsSpace(s[0]) then TrimStart(s[1..]) else s
  }

  /** `trimEnd`: drops the trailing whitespace and nothing else. */
  function TrimEnd(s: string): (r: string)
    ensures |r| <= |s| && r == s[..|r|]
    ensures forall i :: |r| <= i < |s| ==> IsSpace(s[i])
    ensures |r| > 0 ==> !IsSpace(r[|r| - 1])
  {
    if |s| > 0 && IsSpace(s[|s| - 1]) then TrimEnd(s[..|s| - 1]) else s
  }

  /** `r` is the slice of `s` starting at `a`, and everything of `s` before
      and after that slice is whitespace. */
  predicate SpaceAround(s: string, a: int, r: string) {
    && 0 <= a <= |s| - |r| && r == s[a..][..|r|]
    && (forall i :: 0 <= i < a ==> IsSpace(s[i]))
    && (forall i :: a + |r| <= i < |s| ==> IsSpace(s[i]))
  }

  /** `String.prototype.trim`: the part of `s` left once the whitespace at
      both ends is gone. */
  function Trim(s: string): (r: string)
    ensures exists a :: SpaceAround(s, a, r)
    ensures |r| > 0 ==> !IsSpace(r[0]) && !IsSpace(r[|r| - 1])
    ensures NoSpace(s) ==> r == s
  {
    var t := TrimStart(s);
    var r := TrimEnd(t);
    InnerPart(s, t, r);
    r
  }

  /** A prefix `r` of a suffix `t` of `s`, with only whitespace cut off either
      side, is a slice of `s` with only whitespace around it. */
  lemma InnerPart(s: string, t: string, r: string)
    requires |t| <= |s| && t == s[|s| - |t|..]
    requires forall i :: 0 <= i < |s| - |t| ==> IsSpace(s[i])
    requires |r| <= |t| && r == t[..|r|]
    requires forall i :: |r| <= i < |t| ==> IsSpace(t[i])
    ensures SpaceAround(s, |s| - |t|, r)
  {
    var a := |s| - |t|;
    forall i | a + |r| <= i < |s|
      ensures IsSpace(s[i])
    {
      assert s[i] == t[i - a];
    }
    assert r == s[a..][..|r|];
  }

  /** `s.split(/[\s\n\r]{1,}/g)`: the pieces between maximal runs of
      whitespace. As in JavaScript, a leading (trailing) run yields an empty
      first (last) piece, and the empty string yields one empty piece. */
  function Split(s: string): (r: seq<string>)
    ensures |r| >= 1
    ensures forall i :: 0 <= i < |r| ==> NoSpace(r[i])
    ensures forall i :: 0 < i < |r| - 1 ==> |r[i]| > 0
    ensures |s| > 0 && !IsSpace(s[0]) ==> |r[0]| > 0
    decreases |s|
  {
    if |s| == 0 then [""]
    else if IsSpace(s[0]) then [""] + Split(TrimStart(s))
    else
      var r := Split(s[1..]);
      [[s[0]] + r[0]] + r[1..]
  }

  /** `s.split(/[\s\n\r]{1,}/g).map(word => word.trim())`: the word tokens of
      the layout code. The trim never changes a piece. */
  function Tokens(s: string): (r: seq<string>)
    ensures r == Split(s)
    ensures |r| >= 1
  {
    var pieces := Split(s);
    seq(|pieces|, i requires 0 <= i < |pieces| => Trim(pieces[i]))
  }

  /** Every run of whitespace in `s` replaced by a single space. */
  function Collapse(s: string): string
    decreases |s|
  {
    if |s| == 0 then ""
    else if IsSpace(s[0]) then " " + Collapse(TrimStart(s))
    else [s[0]] + Collapse(s[1..])
  }

  /** A list of pieces that `Split` can produce: whitespace-free, at least one,
      and only the first and last may be empty. */
  predicate SplitShaped(ws: seq<string>) {
    && |ws| >= 1
    && (forall i :: 0 <= i < |ws| ==> NoSpace(ws[i]))
    && (forall i :: 0 < i < |ws| - 1 ==> |ws[i]| > 0)
  }

  lemma JoinCons(w: string, ws: seq<string>)
    requires |ws| >= 1
    ensures Join([w] + ws) == w + " " + Join(ws)
  {
    assert ([w] + ws)[1..] == ws;
  }

  lemma JoinStart(ws: seq<string>)
    requires |ws| >= 1
    ensures |Join(ws)| >= |ws[0]| && Join(ws)[..|ws[0]|] == ws[0]
  {
  }

  /** The join's length is the number of letters in all the words plus one
      separator between each two neighbours; it starts with the first word.
      `JoinSnoc` fixes the contents. */
  lemma {:induction false} JoinLength(ws: seq<string>)
    ensures |ws| == 0 ==> Join(ws) == ""
    ensures |ws| >= 1 ==> |Join(ws)| == Letters(ws) + |ws| - 1
    ensures |ws| >= 1 ==> Join(ws)[..|ws[0]|] == ws[0]
    decreases |ws|
  {
    if |ws| >= 2 {
      JoinLength(ws[1..]);
    }
  }

  /** Appending a word to a non-empty list appends " " and the word to its join. */
  lemma {:induction false} JoinSnoc(ws: seq<string>, w: string)
    requires |ws| >= 1
    ensures Join(ws + [w]) == Join(ws) + " " + w
    decreases |ws|
  {
    if |ws| == 1 {
      assert (ws + [w])[1..] == [w];
    } else {
      assert (ws + [w])[1..] == ws[1..] + [w];
      JoinSnoc(ws[1..], w);
    }
  }

  lemma FlattenSnoc(gs: seq<seq<string>>, g: seq<string>)
    ensures Flatten(gs + [g]) == Flatten(gs) + g
  {
    assert (gs + [g])[..|gs|] == gs;
  }

  lemma JoinHead(c: char, r: seq<string>)
    requires |r| >= 1
    ensures Join([[c] + r[0]] + r[1..]) == [c] + Join(r)
  {
    if |r| > 1 {
      JoinCons([c] + r[0], r[1..]);
    }
  }

  /** Joining the pieces of a split puts back a single space wherever the
      text had a run of whitespace. */
  lemma {:induction false} JoinSplit(s: string)
    ensures Join(Split(s)) == Collapse(s)
    decreases |s|
  {
    if |s| == 0 {
    } else if IsSpace(s[0]) {
      var t := TrimStart(s);
      JoinSplit(t);
      JoinCons("", Split(t));
    } else {
      JoinSplit(s[1..]);
      JoinHead(s[0], Split(s[1..]));
    }
  }

  /** Splitting a whitespace-free word followed by anything extends the first piece. */
  lemma {:induction false} SplitPrefix(w: string, t: string)
    requires NoSpace(w)
    ensures Split(w + t) == [w + Split(t)[0]] + Split(t)[1..]
    decreases |w|
  {
    if |w| == 0 {
      var r := Split(t);
      assert w + t == t && w + r[0] == r[0];
      assert [r[0]] + r[1..] == r;
    } else {
      assert (w + t)[0] == w[0];
      assert (w + t)[1..] == w[1..] + t;
      SplitPrefix(w[1..], t);
      assert [w[0]] + (w[1..] + Split(t)[0]) == w + Split(t)[0];
    }
  }

  lemma SplitAfterSpace(t: string)
    requires |t| == 0 || !IsSpace(t[0])
    ensures Split(" " + t) == [""] + Split(t)
  {
    assert (" " + t)[1..] == t;
    assert TrimStart(" " + t) == TrimStart(t) == t;
  }

  /** Split inverts Join on every list of pieces Split can produce. */
  lemma {:induction false} SplitJoin(ws: seq<string>)
    requires SplitShaped(ws)
    ensures Split(Join(ws)) == ws
    decreases |ws|
  {
    if |ws| == 1 {
      SplitPrefix(ws[0], "");
      assert ws[0] + "" == ws[0];
    } else {
      var rest := ws[1..];
      var j := Join(rest);
      assert SplitShaped(rest) by {
        forall i | 0 < i < |rest| - 1 ensures |rest[i]| > 0 {
          assert rest[i] == ws[i + 1];
        }
      }
      SplitJoin(rest);
      if |ws[1]| == 0 {
        assert |ws| == 2;
        assert j == "";
      } else {
        JoinStart(rest);
        assert j[0] == ws[1][0];
      }
      SplitAfterSpace(j);
      assert Join(ws) == ws[0] + (" " + j);
      SplitPrefix(ws[0], " " + j);
      assert ws[0] + "" == ws[0];
      assert [ws[0]] + rest == ws;
    }
  }

  /** A whitespace-free word splits to itself. */
  lemma SplitWord(w: string)
    requires NoSpace(w)
    ensures Split(w) == [w]
  {
    SplitJoin([w]);
  }
}

=== FILE: wrap.dfy ===
/**
 The text layout of `wrapText`: greedy word wrap of the tokens against 85% of
 the canvas width, followed by placement of every line at the horizontal
 centre and at vertically centred, evenly spaced baselines.

 The drawing surface's `measureText(s).width` is the parameter `measure`,
 and each `fillText(line, x, y)` call is recorded as a `Draw`.
 */
module Wrap {
  import opened Text

  /** The pixel width the drawing surface reports for a string in its current font. */
  type Measure = string -> real

  /** The state of the `forEach` over the words: the lines already pushed,
      each kept as the words it was joined from, and the words of the line
      being built (`currentLine`). */
  datatype Acc = Acc(done: seq<seq<string>>, cur: seq<string>)

  /** One `fillText(text, x, y)` call. */
  datatype Draw = Draw(text: string, x: real, y: real)

  lemma ConsShift<T>(a: seq<T>, b: seq<T>)
    requires |b| > 0
    ensures (a + [b[0]]) + b[1..] == a + b
  {
  }

  lemma InitLast<T>(s: seq<T>)
    requires |s| > 0
    ensures s[..|s| - 1] + [s[|s| - 1]] == s
  {
  }

  /** The string measured before `word` joins `cur`: the line `cur` would
      become with the word appended. When `cur` is empty it is " " + word,
      with a space in front, not the word alone. */
  function Candidate(cur: seq<string>, word: string): string {
    Join(cur) + " " + word
  }

  /** The break test: the word does not fit behind the current line, that is,
      the line with the word appended (" " + word on an empty line) is wider
      than the budget. */
  predicate Breaks(measure: Measure, maxWidth: real, cur: seq<string>, word: string) {
    measure(Candidate(cur, word)) > maxWidth
  }

  /** What the break test decides, in terms of the lines themselves. */
  lemma BreakMeans(measure: Measure, maxWidth: real, cur: seq<string>, word: string)
    ensures |cur| > 0 ==> (Breaks(measure, maxWidth, cur, word) <==> measure(Join(cur + [word])) > maxWidth)
    ensures |cur| == 0 ==> (Breaks(measure, maxWidth, cur, word) <==> measure(" " + word) > maxWidth)
  {
    if |cur| > 0 {
      CandidateOnLine(cur, word);
    } else {
      CandidateOnEmpty(cur, word);
    }
  }

  lemma CandidateOnLine(cur: seq<string>, word: string)
    requires |cur| > 0
    ensures Candidate(cur, word) == Join(cur + [word])
  {
    JoinSnoc(cur, word);
  }

  lemma CandidateOnEmpty(cur: seq<string>, word: string)
    requires |cur| == 0
    ensures Candidate(cur, word) == " " + word
  {
    assert Join(cur) == "";
  }

  /** One pass of the loop body: on a break, push the current line (even an
      empty one) and start over; then append the word. */
  function Step(measure: Measure, maxWidth: real, acc: Acc, word: string): (r: Acc)
    ensures Flatten(r.done) + r.cur == Flatten(acc.done) + acc.cur + [word]
    ensures |r.cur| > 0 && r.cur[|r.cur| - 1] == word
    ensures |r.done| + 1 >= |acc.done| + (if |acc.cur| > 0 then 1 else 0)
  {
    if Breaks(measure, maxWidth, acc.cur, word) then
      FlattenSnoc(acc.done, acc.cur);
      Acc(acc.done + [acc.cur], [word])
    else
      Acc(acc.done, acc.cur + [word])
  }

  /** The accumulator once the loop has visited the words `ws`, in order. */
  function Scan(measure: Measure, maxWidth: real, ws: seq<string>): (r: Acc)
    ensures Flatten(r.done) + r.cur == ws
    ensures |ws| > 0 <==> |r.cur| > 0
    decreases |ws|
  {
    if |ws| == 0 then Acc([], [])
    else
      var acc := Scan(measure, maxWidth, ws[..|ws| - 1]);
      var r := Step(measure, maxWidth, acc, ws[|ws| - 1]);
      InitLast(ws);
      r
  }

  /** The final flush: a non-empty current line becomes the last line. */
  function Flush(acc: Acc): (gs: seq<seq<string>>)
    ensures Flatten(gs) == Flatten(acc.done) + acc.cur
    ensures |gs| == |acc.done| + (if |acc.cur| > 0 then 1 else 0)
  {
    if |acc.cur| > 0 then
      FlattenSnoc(acc.done, acc.cur);
      acc.done + [acc.cur]
    else
      assert acc.cur == [];
      assert Flatten(acc.done) + acc.cur == Flatten(acc.done);
      acc.done
  }

  /** The word lists of the emitted lines: every word exactly once, in order,
      never split, and at least one line as soon as there is a word. */
  function Groups(measure: Measure, maxWidth: real, ws: seq<string>): (gs: seq<seq<string>>)
    ensures Flatten(gs) == ws
    ensures |ws| > 0 ==> |gs| >= 1
  {
    Flush(Scan(measure, maxWidth, ws))
  }

  /** The emitted lines, each the words of its group joined by single spaces. */
  function Lines(measure: Measure, maxWidth: real, ws: seq<string>): (lines: seq<string>)
    ensures |lines| == |Groups(measure, maxWidth, ws)|
    ensures forall i :: 0 <= i < |lines| ==> lines[i] == Join(Groups(measure, maxWidth, ws)[i])
  {
    var gs := Groups(measure, maxWidth, ws);
    seq(|gs|, i requires 0 <= i < |gs| => Join(gs[i]))
  }

  /** `Lines`'s own contract, restated as a lemma so that a caller can bring
      it into scope at one chosen point. */
  lemma LinesOfGroups(measure: Measure, maxWidth: real, ws: seq<string>)
    ensures var gs := Groups(measure, maxWidth, ws);
      var lines := Lines(measure, maxWidth, ws);
      |lines| == |gs| && forall i :: 0 <= i < |lines| ==> lines[i] == Join(gs[i])
  {
  }

  // ----- A declarative description of the greedy wrap -----

  /** Every line after the first was started by a break: it is non-empty and
      its first word did not fit behind the line before it. */
  predicate BreakBefore(measure: Measure, maxWidth: real, gs: seq<seq<string>>) {
    forall i :: 1 <= i < |gs| ==> |gs[i]| > 0 && Breaks(measure, maxWidth, gs[i - 1], gs[i][0])
  }

  /** Every word that is not the first of a line after the first one fitted
      behind the words before it on its line. */
  predicate FitsWithin(measure: Measure, maxWidth: real, gs: seq<seq<string>>) {
    forall i, j :: 0 <= i < |gs| && 0 <= j < |gs[i]| && (i == 0 || j > 0) ==>
      FitsAt(measure, maxWidth, gs[i], j)
  }

  /** The word at position `j` of a line passed the break test behind the words before it. */
  predicate FitsAt(measure: Measure, maxWidth: real, line: seq<string>, j: nat)
    requires j < |line|
  {
    !Breaks(measure, maxWidth, line[..j], line[j])
  }

  /** Whether a word fits depends only on the words before it on its line. */
  lemma FitsAtPrefix(measure: Measure, maxWidth: real, line: seq<string>, k: nat, j: nat)
    requires j < k <= |line|
    ensures FitsAt(measure, maxWidth, line[..k], j) == FitsAt(measure, maxWidth, line, j)
  {
    assert line[..k][..j] == line[..j];
  }

  /** The lines so far, the last one still open. */
  predicate Open(measure: Measure, maxWidth: real, ws: seq<string>, gs: seq<seq<string>>) {
    && Flatten(gs) == ws
    && BreakBefore(measure, maxWidth, gs)
    && FitsWithin(measure, maxWidth, gs)
  }

  /** `gs` is a greedy wrap of `ws`: it holds the words in order, breaks exactly
      where the break test fires, and ends with a non-empty line. */
  predicate Greedy(measure: Measure, maxWidth: real, ws: seq<string>, gs: seq<seq<string>>) {
    && Open(measure, maxWidth, ws, gs)
    && (|gs| > 0 ==> |gs[|gs| - 1]| > 0)
  }

  /** One loop pass keeps the open lines a greedy wrap of the words seen. */
  lemma {:induction false} StepKeepsOpen(measure: Measure, maxWidth: real, ws: seq<string>, acc: Acc, w: string)
    requires |ws| > 0 && |acc.cur| > 0
    requires Open(measure, maxWidth, ws, acc.done + [acc.cur])
    ensures var r := Step(measure, maxWidth, acc, w);
      Open(measure, maxWidth, ws + [w], r.done + [r.cur])
  {
    var gs := acc.done + [acc.cur];
    var r := Step(measure, maxWidth, acc, w);
    if Breaks(measure, maxWidth, acc.cur, w) {
      assert r.done + [r.cur] == gs + [[w]];
      BreakKeepsOpen(measure, maxWidth, ws, gs, w);
    } else {
      assert r.done + [r.cur] == acc.done + [acc.cur + [w]];
      AppendKeepsOpen(measure, maxWidth, ws, acc.done, acc.cur, w);
    }
  }

  /** A break opens a new line holding just the word. */
  lemma BreakKeepsOpen(measure: Measure, maxWidth: real, ws: seq<string>, gs: seq<seq<string>>, w: string)
    requires |gs| > 0
    requires Open(measure, maxWidth, ws, gs)
    requires Breaks(measure, maxWidth, gs[|gs| - 1], w)
    ensures Open(measure, maxWidth, ws + [w], gs + [[w]])
  {
    var gs' := gs + [[w]];
    FlattenSnoc(gs, [w]);
    forall i, j | 0 <= i < |gs'| && 0 <= j < |gs'[i]| && (i == 0 || j > 0)
      ensures FitsAt(measure, maxWidth, gs'[i], j)
    {
      assert i < |gs| && gs'[i] == gs[i];
    }
    forall i | 1 <= i < |gs'|
      ensures |gs'[i]| > 0 && Breaks(measure, maxWidth, gs'[i - 1], gs'[i][0])
    {
      if i < |gs| {
        assert gs'[i - 1] == gs[i - 1] && gs'[i] == gs[i];
      }
    }
  }

  /** A word that fits joins the current line. */
  lemma AppendKeepsOpen(measure: Measure, maxWidth: real, ws: seq<string>, done: seq<seq<string>>, cur: seq<string>, w: string)
    requires |cur| > 0
    requires Open(measure, maxWidth, ws, done + [cur])
    requires !Breaks(measure, maxWidth, cur, w)
    ensures Open(measure, maxWidth, ws + [w], done + [cur + [w]])
  {
    var gs := done + [cur];
    var last := cur + [w];
    var gs' := done + [last];
    FlattenSnoc(done, cur);
    FlattenSnoc(done, last);
    forall i, j | 0 <= i < |gs'| && 0 <= j < |gs'[i]| && (i == 0 || j > 0)
      ensures FitsAt(measure, maxWidth, gs'[i], j)
    {
      if i < |done| {
        assert gs'[i] == gs[i];
      } else if j < |cur| {
        assert gs[i] == cur == last[..|cur|];
        FitsAtPrefix(measure, maxWidth, last, |cur|, j);
      } else {
        assert last[..j] == cur;
      }
    }
    forall i | 1 <= i < |gs'|
      ensures |gs'[i]| > 0 && Breaks(measure, maxWidth, gs'[i - 1], gs'[i][0])
    {
      assert gs'[i - 1] == gs[i - 1];
      assert gs'[i][0] == gs[i][0];
    }
  }

  /** The first word opens the first line, after an empty one when the break
      test already fires for it. */
  lemma {:induction false} FirstStep(measure: Measure, maxWidth: real, w: string)
    ensures var r := Step(measure, maxWidth, Acc([], []), w);
      Open(measure, maxWidth, [w], r.done + [r.cur])
  {
    var r := Step(measure, maxWidth, Acc([], []), w);
    if Breaks(measure, maxWidth, [], w) {
      assert r.done + [r.cur] == [[], [w]];
      EmptyThenWord(measure, maxWidth, w);
    } else {
      assert [] + [w] == [w];
      assert r.done + [r.cur] == [[w]];
      WordAlone(measure, maxWidth, w);
    }
  }

  lemma EmptyThenWord(measure: Measure, maxWidth: real, w: string)
    requires Breaks(measure, maxWidth, [], w)
    ensures Open(measure, maxWidth, [w], [[], [w]])
  {
    FlattenSnoc([], []);
    FlattenSnoc([[]], [w]);
    assert [[]] + [[w]] == [[], [w]];
  }

  lemma WordAlone(measure: Measure, maxWidth: real, w: string)
    requires !Breaks(measure, maxWidth, [], w)
    ensures Open(measure, maxWidth, [w], [[w]])
  {
    FlattenSnoc([], [w]);
    assert [w][..0] == [];
    assert FitsAt(measure, maxWidth, [w], 0);
  }

  /** The loop invariant of the `forEach`: after any prefix of the words,
      the pushed lines and the current line form an open greedy wrap. */
  lemma {:induction false} ScanIsOpen(measure: Measure, maxWidth: real, ws: seq<string>)
    requires |ws| > 0
    ensures var acc := Scan(measure, maxWidth, ws);
      Open(measure, maxWidth, ws, acc.done + [acc.cur])
    decreases |ws|
  {
    var prefix := ws[..|ws| - 1];
    var w := ws[|ws| - 1];
    assert ws == prefix + [w];
    if |prefix| == 0 {
      FirstStep(measure, maxWidth, w);
    } else {
      ScanIsOpen(measure, maxWidth, prefix);
      StepKeepsOpen(measure, maxWidth, prefix, Scan(measure, maxWidth, prefix), w);
    }
  }

  /** The lines the code emits are a greedy wrap of the words. */
  lemma {:induction false} GroupsAreGreedy(measure: Measure, maxWidth: real, ws: seq<string>)
    ensures Greedy(measure, maxWidth, ws, Groups(measure, maxWidth, ws))
  {
    if |ws| > 0 {
      ScanIsOpen(measure, maxWidth, ws);
    }
  }

  /** The last line of a greedy wrap ends with the last word, and the
      other words are the lines before it followed by the rest of that line. */
  lemma {:induction false} LastLine(ws: seq<string>, gs: seq<seq<string>>)
    requires |gs| > 0 && |gs[|gs| - 1]| > 0 && Flatten(gs) == ws
    ensures var last := gs[|gs| - 1];
      && |ws| > 0 && last[|last| - 1] == ws[|ws| - 1]
      && Flatten(gs[..|gs| - 1]) + last[..|last| - 1] == ws[..|ws| - 1]
  {
    var init := gs[..|gs| - 1];
    var last := gs[|gs| - 1];
    var k := |last| - 1;
    var front := Flatten(init);
    assert ws == front + last;
    assert last == last[..k] + [last[k]];
    assert ws == (front + last[..k]) + [last[k]];
  }

  /** Only the first line of a greedy wrap may be empty, so before a word
      there is at least one non-empty line unless it is the first line. */
  lemma {:induction false} EmptyFlattenOfLines(gs: seq<seq<string>>)
    requires |gs| > 0 && Flatten(gs) == []
    requires forall i :: 1 <= i < |gs| ==> |gs[i]| > 0
    ensures gs == [[]]
  {
    var n := |gs|;
    assert Flatten(gs) == Flatten(gs[..n - 1]) + gs[n - 1];
    assert n == 1;
    assert gs == [gs[0]];
  }

  /** Removing a last line that holds one word started by a break leaves a
      greedy wrap of the other words. */
  lemma {:induction false} DropBrokenLine(measure: Measure, maxWidth: real, ws: seq<string>, gs: seq<seq<string>>)
    requires Greedy(measure, maxWidth, ws, gs)
    requires |gs| >= 2 && |gs[|gs| - 1]| == 1
    ensures var init := gs[..|gs| - 1];
      && Flatten(init) == ws[..|ws| - 1]
      && |ws| > 0 && gs[|gs| - 1] == [ws[|ws| - 1]]
      && Breaks(measure, maxWidth, init[|init| - 1], ws[|ws| - 1])
      && (|ws| == 1 ==> init == [[]])
      && (|ws| > 1 ==> Greedy(measure, maxWidth, ws[..|ws| - 1], init))
  {
    var n := |gs|;
    var init := gs[..n - 1];
    LastLine(ws, gs);
    assert gs[n - 1][..0] == [];
    assert Flatten(init) == ws[..|ws| - 1];
    if |ws| == 1 {
      EmptyFlattenOfLines(init);
    } else {
      if n - 1 == 1 {
        assert Flatten(init) == Flatten(init[..0]) + init[0];
      }
      assert FitsWithin(measure, maxWidth, init) by {
        forall i, j | 0 <= i < |init| && 0 <= j < |init[i]| && (i == 0 || j > 0)
          ensures FitsAt(measure, maxWidth, init[i], j)
        {
          assert init[i] == gs[i];
        }
      }
      assert BreakBefore(measure, maxWidth, init) by {
        forall i | 1 <= i < |init|
          ensures |init[i]| > 0 && Breaks(measure, maxWidth, init[i - 1], init[i][0])
        {
          assert init[i] == gs[i] && init[i - 1] == gs[i - 1];
        }
      }
    }
    assert Breaks(measure, maxWidth, gs[n - 2], gs[n - 1][0]);
  }

  /** Removing the last word from a last line of two or more words leaves
      a greedy wrap of the other words. */
  lemma {:induction false} DropAppendedWord(measure: Measure, maxWidth: real, ws: seq<string>, gs: seq<seq<string>>, gs': seq<seq<string>>)
    requires Greedy(measure, maxWidth, ws, gs)
    requires |gs| > 0 && |gs[|gs| - 1]| >= 2
    requires gs' == gs[..|gs| - 1] + [gs[|gs| - 1][..|gs[|gs| - 1]| - 1]]
    ensures var last := gs[|gs| - 1];
      && |ws| > 1 && last[|last| - 1] == ws[|ws| - 1]
      && !Breaks(measure, maxWidth, last[..|last| - 1], ws[|ws| - 1])
      && Greedy(measure, maxWidth, ws[..|ws| - 1], gs')
  {
    var n := |gs|;
    var init := gs[..n - 1];
    var last := gs[n - 1];
    var k := |last| - 1;
    LastLine(ws, gs);
    FlattenSnoc(init, last[..k]);
    assert |ws| > 1 by {
      assert |Flatten(init) + last[..k]| >= k >= 1;
    }
    assert FitsAt(measure, maxWidth, gs[n - 1], k);
    TrimmedLineFits(measure, maxWidth, gs, gs');
    TrimmedLineBreaks(measure, maxWidth, gs, gs');
  }

  /** Dropping the last word of the last line keeps every other word fitting. */
  lemma TrimmedLineFits(measure: Measure, maxWidth: real, gs: seq<seq<string>>, gs': seq<seq<string>>)
    requires FitsWithin(measure, maxWidth, gs)
    requires |gs| > 0 && |gs[|gs| - 1]| >= 1
    requires gs' == gs[..|gs| - 1] + [gs[|gs| - 1][..|gs[|gs| - 1]| - 1]]
    ensures FitsWithin(measure, maxWidth, gs')
  {
    var n := |gs|;
    var last := gs[n - 1];
    forall i, j | 0 <= i < |gs'| && 0 <= j < |gs'[i]| && (i == 0 || j > 0)
      ensures FitsAt(measure, maxWidth, gs'[i], j)
    {
      if i < n - 1 {
        assert gs'[i] == gs[i];
      } else {
        assert FitsAt(measure, maxWidth, gs[n - 1], j);
        FitsAtPrefix(measure, maxWidth, last, |last| - 1, j);
      }
    }
  }

  /** Dropping the last word of a last line of two or more words keeps every
      line start a break. */
  lemma TrimmedLineBreaks(measure: Measure, maxWidth: real, gs: seq<seq<string>>, gs': seq<seq<string>>)
    requires BreakBefore(measure, maxWidth, gs)
    requires |gs| > 0 && |gs[|gs| - 1]| >= 2
    requires gs' == gs[..|gs| - 1] + [gs[|gs| - 1][..|gs[|gs| - 1]| - 1]]
    ensures BreakBefore(measure, maxWidth, gs')
  {
    forall i | 1 <= i < |gs'|
      ensures |gs'[i]| > 0 && Breaks(measure, maxWidth, gs'[i - 1], gs'[i][0])
    {
      assert gs'[i - 1] == gs[i - 1];
      assert gs'[i][0] == gs[i][0];
    }
  }

  /** Visiting one more word is one more pass of the loop body. */
  lemma ScanSnoc(measure: Measure, maxWidth: real, ws: seq<string>, w: string)
    ensures Scan(measure, maxWidth, ws + [w]) == Step(measure, maxWidth, Scan(measure, maxWidth, ws), w)
  {
    assert (ws + [w])[..|ws|] == ws;
  }

  /** A last line holding just the last word, started by a break, is the
      loop state one pass after the lines before it. */
  lemma ScanAfterBreak(measure: Measure, maxWidth: real, ws: seq<string>, gs: seq<seq<string>>)
    requires |ws| > 0 && |gs| >= 2 && gs[|gs| - 1] == [ws[|ws| - 1]]
    requires Scan(measure, maxWidth, ws[..|ws| - 1]) == Acc(gs[..|gs| - 2], gs[|gs| - 2])
    requires Breaks(measure, maxWidth, gs[|gs| - 2], ws[|ws| - 1])
    ensures Scan(measure, maxWidth, ws) == Acc(gs[..|gs| - 1], gs[|gs| - 1])
  {
    var n := |gs|;
    InitLast(ws);
    ScanSnoc(measure, maxWidth, ws[..|ws| - 1], ws[|ws| - 1]);
    InitLast(gs[..n - 1]);
    assert gs[..n - 1][..n - 2] == gs[..n - 2];
  }

  /** A last line ending in the last word, which fitted behind the rest of
      that line, is the loop state one pass after the line without it. */
  lemma ScanAfterFit(measure: Measure, maxWidth: real, ws: seq<string>, gs: seq<seq<string>>)
    requires |ws| > 0 && |gs| > 0
    requires var last := gs[|gs| - 1];
      && |last| > 0 && last[|last| - 1] == ws[|ws| - 1]
      && Scan(measure, maxWidth, ws[..|ws| - 1]) == Acc(gs[..|gs| - 1], last[..|last| - 1])
      && !Breaks(measure, maxWidth, last[..|last| - 1], ws[|ws| - 1])
    ensures Scan(measure, maxWidth, ws) == Acc(gs[..|gs| - 1], gs[|gs| - 1])
  {
    InitLast(ws);
    ScanSnoc(measure, maxWidth, ws[..|ws| - 1], ws[|ws| - 1]);
    InitLast(gs[|gs| - 1]);
  }

  /** Read backwards, a greedy wrap of the words is the loop state the code
      reaches after visiting them: its last line is the current line. */
  lemma {:induction false} GreedyIsScan(measure: Measure, maxWidth: real, ws: seq<string>, gs: seq<seq<string>>)
    requires |ws| > 0
    requires Greedy(measure, maxWidth, ws, gs)
    ensures |gs| > 0 && Scan(measure, maxWidth, ws) == Acc(gs[..|gs| - 1], gs[|gs| - 1])
    decreases |ws|, 1
  {
    assert |gs| > 0;
    var last := gs[|gs| - 1];
    if |last| == 1 && |gs| >= 2 {
      BrokenLineIsScan(measure, maxWidth, ws, gs);
    } else if |last| == 1 {
      LastLine(ws, gs);
      assert ws[..|ws| - 1] == [] && last[..0] == [];
      assert FitsAt(measure, maxWidth, gs[0], 0);
      ScanAfterFit(measure, maxWidth, ws, gs);
    } else {
      AppendedWordIsScan(measure, maxWidth, ws, gs);
    }
  }

  /** `GreedyIsScan` when the last line is one word started by a break. */
  lemma {:induction false} BrokenLineIsScan(measure: Measure, maxWidth: real, ws: seq<string>, gs: seq<seq<string>>)
    requires |ws| > 0
    requires Greedy(measure, maxWidth, ws, gs)
    requires |gs| >= 2 && |gs[|gs| - 1]| == 1
    ensures Scan(measure, maxWidth, ws) == Acc(gs[..|gs| - 1], gs[|gs| - 1])
    decreases |ws|, 0
  {
    var n := |gs|;
    var init := gs[..n - 1];
    var prefix := ws[..|ws| - 1];
    DropBrokenLine(measure, maxWidth, ws, gs);
    if |ws| > 1 {
      GreedyIsScan(measure, maxWidth, prefix, init);
      assert init[..n - 2] == gs[..n - 2];
    } else {
      assert prefix == [];
    }
    ScanAfterBreak(measure, maxWidth, ws, gs);
  }

  /** `GreedyIsScan` when the last word was appended to a non-empty line. */
  lemma {:induction false} AppendedWordIsScan(measure: Measure, maxWidth: real, ws: seq<string>, gs: seq<seq<string>>)
    requires |ws| > 0
    requires Greedy(measure, maxWidth, ws, gs)
    requires |gs| > 0 && |gs[|gs| - 1]| >= 2
    ensures Scan(measure, maxWidth, ws) == Acc(gs[..|gs| - 1], gs[|gs| - 1])
    decreases |ws|, 0
  {
    var n := |gs|;
    var init := gs[..n - 1];
    var last := gs[n - 1];
    var gs' := init + [last[..|last| - 1]];
    DropAppendedWord(measure, maxWidth, ws, gs, gs');
    GreedyIsScan(measure, maxWidth, ws[..|ws| - 1], gs');
    assert gs'[..n - 1] == init && gs'[n - 1] == last[..|last| - 1];
    ScanAfterFit(measure, maxWidth, ws, gs);
  }

  /** The greedy wrap is unique: the lines the code emits are the one list
      of lines that keeps the words in order and breaks exactly where the
      break test fires. */
  lemma {:induction false} GroupsCharacterised(measure: Measure, maxWidth: real, ws: seq<string>, gs: seq<seq<string>>)
    ensures Greedy(measure, maxWidth, ws, gs) <==> gs == Groups(measure, maxWidth, ws)
  {
    GroupsAreGreedy(measure, maxWidth, ws);
    if Greedy(measure, maxWidth, ws, gs) {
      if |ws| > 0 {
        GreedyIsScan(measure, maxWidth, ws, gs);
        assert gs == gs[..|gs| - 1] + [gs[|gs| - 1]];
      } else if |gs| > 0 {
        assert false;
      }
    }
  }

  // ----- Consequences of the greedy rule -----

  lemma {:induction false} FlattenFront(gs: seq<seq<string>>)
    requires |gs| >= 1
    ensures Flatten(gs) == gs[0] + Flatten(gs[1..])
    decreases |gs|
  {
    if |gs| > 1 {
      var n := |gs|;
      FlattenFront(gs[..n - 1]);
      assert gs[..n - 1][1..] == gs[1..][..n - 2];
      assert gs[..n - 1][0] == gs[0];
      assert gs[1..][n - 2] == gs[n - 1];
    } else {
      assert gs[1..] == [];
      assert gs == [] + [gs[0]];
      FlattenSnoc([], gs[0]);
    }
  }

  /** Every line of two or more words is at most `maxWidth` wide: its text is
      exactly the candidate that passed the test when its last word was added. */
  lemma {:induction false} WidthBound(measure: Measure, maxWidth: real, ws: seq<string>)
    ensures var gs := Groups(measure, maxWidth, ws);
      var lines := Lines(measure, maxWidth, ws);
      forall i :: 0 <= i < |lines| && |gs[i]| >= 2 ==> measure(lines[i]) <= maxWidth
  {
    var gs := Groups(measure, maxWidth, ws);
    var lines := Lines(measure, maxWidth, ws);
    GroupsAreGreedy(measure, maxWidth, ws);
    forall i | 0 <= i < |lines| && |gs[i]| >= 2
      ensures measure(lines[i]) <= maxWidth
    {
      var g := gs[i];
      var k := |g| - 1;
      assert FitsAt(measure, maxWidth, g, k);
      JoinSnoc(g[..k], g[k]);
      InitLast(g);
      assert Candidate(g[..k], g[k]) == Join(g);
    }
  }

  /** The first line holds no words exactly when the break test already fires
      for the first word (" " + word is too wide); that word then starts the
      second line, whole. A drawn "" first line also comes from an empty first
      word, which the split yields for an empty text or one that starts with
      whitespace. */
  lemma {:induction false} EmptyFirstLine(measure: Measure, maxWidth: real, ws: seq<string>)
    requires |ws| > 0
    ensures var gs := Groups(measure, maxWidth, ws);
      Breaks(measure, maxWidth, [], ws[0]) <==> (|gs| >= 2 && gs[0] == [])
    ensures var gs := Groups(measure, maxWidth, ws);
      Breaks(measure, maxWidth, [], ws[0]) ==>
        && |gs| >= 2 && |gs[1]| > 0
        && Lines(measure, maxWidth, ws)[0] == "" && gs[1][0] == ws[0]
  {
    var gs := Groups(measure, maxWidth, ws);
    GroupsAreGreedy(measure, maxWidth, ws);
    FlattenFront(gs);
    assert |gs[|gs| - 1]| > 0;
    if gs[0] == [] {
      assert |gs| >= 2;
      FlattenFront(gs[1..]);
      assert gs[1..][0] == gs[1];
      assert ws == gs[1] + Flatten(gs[1..][1..]);
      assert gs[1][0] == ws[0];
      assert Breaks(measure, maxWidth, gs[0], gs[1][0]);
    } else {
      assert gs[0][0] == ws[0];
      assert FitsAt(measure, maxWidth, gs[0], 0);
      assert gs[0][..0] == [];
    }
  }

  /** A single word lands on one line, or on a second line behind an empty
      one when the break test fires for it on an empty line. */
  lemma OneWordGroups(measure: Measure, maxWidth: real, w: string)
    ensures Groups(measure, maxWidth, [w]) ==
      if Breaks(measure, maxWidth, [], w) then [[], [w]] else [[w]]
  {
    assert [w][..0] == [];
    assert Scan(measure, maxWidth, [w]) == Step(measure, maxWidth, Acc([], []), w);
  }

  /** The lines drawn for a single word: the word alone, or an empty line
      and then the word. */
  lemma OneWordLines(measure: Measure, maxWidth: real, w: string)
    ensures Lines(measure, maxWidth, [w]) ==
      if Breaks(measure, maxWidth, [], w) then ["", w] else [w]
  {
    var lines := Lines(measure, maxWidth, [w]);
    LinesOfGroups(measure, maxWidth, [w]);
    OneWordGroups(measure, maxWidth, w);
    assert Join([]) == "" && Join([w]) == w;
  }

  /** The empty text splits into one empty word, drawn as one empty line,
      or as two when a single space is already too wide. */
  lemma EmptyTextLines(measure: Measure, maxWidth: real)
    ensures Lines(measure, maxWidth, Split("")) == if measure(" ") > maxWidth then ["", ""] else [""]
  {
    SplitWord("");
    OneWordLines(measure, maxWidth, "");
    SpaceAlone(measure, maxWidth);
  }

  lemma SpaceAlone(measure: Measure, maxWidth: real)
    ensures Breaks(measure, maxWidth, [], "") <==> measure(" ") > maxWidth
  {
    CandidateOnEmpty([], "");
    assert " " + "" == " ";
  }

  lemma OneMoreWord(measure: Measure, maxWidth: real, ws: seq<string>, w: string)
    ensures |Groups(measure, maxWidth, ws)| <= |Groups(measure, maxWidth, ws + [w])|
  {
    ScanSnoc(measure, maxWidth, ws, w);
  }

  /** Appending words never reduces the number of lines. */
  lemma {:induction false} MoreWordsNoFewerLines(measure: Measure, maxWidth: real, ws: seq<string>, more: seq<string>)
    ensures |Groups(measure, maxWidth, ws)| <= |Groups(measure, maxWidth, ws + more)|
    decreases |more|
  {
    if |more| == 0 {
      assert ws + more == ws;
    } else {
      var next := ws + [more[0]];
      OneMoreWord(measure, maxWidth, ws, more[0]);
      MoreWordsNoFewerLines(measure, maxWidth, next, more[1..]);
      ConsShift(ws, more);
    }
  }

  // ----- Placement -----

  /** The `maxWidth` of `wrapText`: 85% of the canvas width, so never
      negative, at most the width, and strictly inside it on a canvas of
      positive width. */
  function MaxWidth(canvasWidth: nat): (r: real)
    ensures 20.0 * r == 17.0 * canvasWidth as real
    ensures 0.0 <= r <= canvasWidth as real
    ensures canvasWidth > 0 ==> r < canvasWidth as real
  {
    canvasWidth as real * 0.85
  }

  /** The positions promised for a block of lines on a `width` × `height`
      canvas: every line on the vertical centre line, each one `lineHeight`
      below the one before, and the first and last baselines symmetric about
      half the height. */
  predicate Centred(r: seq<Draw>, width: real, height: real, lineHeight: real) {
    && (forall i :: 0 <= i < |r| ==> r[i].x == width / 2.0)
    && (forall i :: 1 <= i < |r| ==> r[i].y == r[i - 1].y + lineHeight)
    && (|r| > 0 ==> (r[0].y + r[|r| - 1].y) / 2.0 == height / 2.0)
  }

  /** The `fillText` calls for the lines, in order, centred as a block. */
  function Place(lines: seq<string>, width: real, height: real, lineHeight: real): (r: seq<Draw>)
    ensures |r| == |lines|
    ensures forall i :: 0 <= i < |r| ==> r[i].text == lines[i]
    ensures Centred(r, width, height, lineHeight)
  {
    var middleX := width / 2.0;
    var middleY := height / 2.0 + lineHeight / 2.0;
    var lineOffset := middleY - (|lines| as real / 2.0) * lineHeight;
    var r := seq(|lines|, i requires 0 <= i < |lines| => Draw(lines[i], middleX, lineOffset + i as real * lineHeight));
    EvenRows(r, width, height, lineHeight);
    r
  }

  /** Rows on the centre column, starting at height/2 + lineHeight/2 -
      (n/2)·lineHeight and one line height apart, form a centred block. */
  lemma EvenRows(r: seq<Draw>, width: real, height: real, lineHeight: real)
    requires forall i :: 0 <= i < |r| ==> r[i].x == width / 2.0
    requires forall i :: 0 <= i < |r| ==>
      r[i].y == (height / 2.0 + lineHeight / 2.0 - (|r| as real / 2.0) * lineHeight) + i as real * lineHeight
    ensures Centred(r, width, height, lineHeight)
  {
    var offset := height / 2.0 + lineHeight / 2.0 - (|r| as real / 2.0) * lineHeight;
    forall i | 1 <= i < |r|
      ensures r[i].y == r[i - 1].y + lineHeight
    {
      NextRow(offset, lineHeight, i - 1);
    }
    if |r| > 0 {
      BlockCentre(|r|, height, lineHeight);
    }
  }

  /** Row `i + 1` lies one line height below row `i`. */
  lemma NextRow(offset: real, lineHeight: real, i: nat)
    ensures offset + (i + 1) as real * lineHeight == (offset + i as real * lineHeight) + lineHeight
  {
  }

  /** With the first of `n` rows at height/2 + lineHeight/2 - (n/2)·lineHeight
      and the last `n - 1` rows below it, the two are symmetric about half the height. */
  lemma BlockCentre(n: nat, height: real, lineHeight: real)
    requires n > 0
    ensures var first := height / 2.0 + lineHeight / 2.0 - (n as real / 2.0) * lineHeight;
      (first + 0 as real * lineHeight + (first + (n - 1) as real * lineHeight)) / 2.0 == height / 2.0
  {
    assert (n - 1) as real * lineHeight == (n as real / 2.0) * lineHeight * 2.0 - lineHeight;
  }

  /** Evenly spaced rows: row `i` lies `i` line heights below the first. */
  lemma {:induction false} RowOffset(r: seq<Draw>, lineHeight: real, i: nat)
    requires forall k :: 1 <= k < |r| ==> r[k].y == r[k - 1].y + lineHeight
    requires i < |r|
    ensures r[i].y == r[0].y + i as real * lineHeight
  {
    if i > 0 {
      RowOffset(r, lineHeight, i - 1);
      NextRow(r[0].y, lineHeight, i - 1);
    }
  }

  /** In a centred block of `n` lines, row `i` sits at
      height/2 + lineHeight/2 - (n/2)·lineHeight + i·lineHeight, the baseline
      `wrapText` computes. */
  lemma RowFormula(r: seq<Draw>, width: real, height: real, lineHeight: real, i: nat)
    requires Centred(r, width, height, lineHeight)
    requires i < |r|
    ensures r[i].y == height / 2.0 + lineHeight / 2.0 - (|r| as real / 2.0) * lineHeight + i as real * lineHeight
  {
    var n := |r|;
    RowOffset(r, lineHeight, n - 1);
    RowOffset(r, lineHeight, i);
    BlockCentre(n, height, lineHeight);
  }

  /** The placement is the only one with these texts, the centre column,
      even spacing and a vertically centred block. */
  lemma {:induction false} PlaceCharacterised(lines: seq<string>, width: real, height: real, lineHeight: real, r: seq<Draw>)
    requires |r| == |lines|
    requires forall i :: 0 <= i < |r| ==> r[i].text == lines[i]
    requires Centred(r, width, height, lineHeight)
    ensures r == Place(lines, width, height, lineHeight)
  {
    var p := Place(lines, width, height, lineHeight);
    forall i | 0 <= i < |r|
      ensures r[i] == p[i]
    {
      RowFormula(r, width, height, lineHeight, i);
      RowFormula(p, width, height, lineHeight, i);
    }
  }

  /** `wrapText(context, text, lineHeight)` on a canvas of `width` × `height`
      pixels: the `fillText` calls it makes, one per wrapped line. */
  function WrapText(measure: Measure, width: nat, height: nat, text: string, lineHeight: real): (r: seq<Draw>)
    ensures var gs := Groups(measure, MaxWidth(width), Split(text));
      && |r| == |gs| >= 1
      && Flatten(gs) == Split(text)
      && forall i :: 0 <= i < |r| ==> r[i].text == Join(gs[i])
    ensures Centred(r, width as real, height as real, lineHeight)
  {
    var words := Tokens(text);
    assert words == Split(text);
    var lines := Lines(measure, MaxWidth(width), words);
    LinesOfGroups(measure, MaxWidth(width), words);
    var r := Place(lines, width as real, height as real, lineHeight);
    DrawsOfGroups(Groups(measure, MaxWidth(width), words), lines, r);
    r
  }

  /** Draws that show `lines` one to one, where each line is the join of
      its group, show the groups one to one. */
  lemma DrawsOfGroups(gs: seq<seq<string>>, lines: seq<string>, r: seq<Draw>)
    requires |lines| == |gs| && forall i :: 0 <= i < |lines| ==> lines[i] == Join(gs[i])
    requires |r| == |lines| && forall i :: 0 <= i < |r| ==> r[i].text == lines[i]
    ensures |r| == |gs| && forall i :: 0 <= i < |r| ==> r[i].text == Join(gs[i])
  {
  }

  /** A text that is a single word is drawn alone, or on a second line
      behind an empty one when the break test fires for it on an empty line. */
  lemma OneWordText(measure: Measure, width: nat, height: nat, text: string, lineHeight: real, w: string)
    requires Split(text) == [w]
    ensures var r := WrapText(measure, width, height, text, lineHeight);
      if Breaks(measure, MaxWidth(width), [], w) then
        |r| == 2 && r[0].text == "" && r[1].text == w
      else
        |r| == 1 && r[0].text == w
  {
    var r := WrapText(measure, width, height, text, lineHeight);
    OneWordDraws(r, measure, MaxWidth(width), Split(text), w);
  }

  lemma OneWordDraws(lines: seq<Draw>, m: Measure, mw: real, words: seq<string>, w: string)
    requires words == [w]
    requires var gs := Groups(m, mw, words);
      |lines| == |gs| && forall i :: 0 <= i < |lines| ==> lines[i].text == Join(gs[i])
    ensures if Breaks(m, mw, [], w) then
        |lines| == 2 && lines[0].text == "" && lines[1].text == w
      else
        |lines| == 1 && lines[0].text == w
  {
    OneWordGroups(m, mw, w);
  }

  // ----- Worked examples, 10 pixels per character and a 100 pixel budget -----

  function TenPerChar(s: string): real {
    |s| as real * 10.0
  }

  /** Each candidate "aaaaa bbbbb" is 110 pixels wide, so the three words
      land on three lines. */
  lemma ThreeWordsThreeLines()
    ensures Lines(TenPerChar, 100.0, ["aaaaa", "bbbbb", "ccccc"]) == ["aaaaa", "bbbbb", "ccccc"]
  {
    ThreeWordsScan();
    assert Groups(TenPerChar, 100.0, ["aaaaa", "bbbbb", "ccccc"]) == [["aaaaa"], ["bbbbb"], ["ccccc"]];
  }

  lemma ThreeWordsScan()
    ensures Scan(TenPerChar, 100.0, ["aaaaa", "bbbbb", "ccccc"]) == Acc([["aaaaa"], ["bbbbb"]], ["ccccc"])
  {
    TwoWordsScan();
    ScanSnoc(TenPerChar, 100.0, ["aaaaa", "bbbbb"], "ccccc");
    assert ["aaaaa", "bbbbb"] + ["ccccc"] == ["aaaaa", "bbbbb", "ccccc"];
    assert Candidate(["bbbbb"], "ccccc") == "bbbbb ccccc";
    assert [["aaaaa"]] + [["bbbbb"]] == [["aaaaa"], ["bbbbb"]];
  }

  lemma TwoWordsScan()
    ensures Scan(TenPerChar, 100.0, ["aaaaa", "bbbbb"]) == Acc([["aaaaa"]], ["bbbbb"])
  {
    OneWordScan();
    ScanSnoc(TenPerChar, 100.0, ["aaaaa"], "bbbbb");
    assert ["aaaaa"] + ["bbbbb"] == ["aaaaa", "bbbbb"];
    assert Candidate(["aaaaa"], "bbbbb") == "aaaaa bbbbb";
    assert [] + [["aaaaa"]] == [["aaaaa"]];
  }

  lemma OneWordScan()
    ensures Scan(TenPerChar, 100.0, ["aaaaa"]) == Acc([], ["aaaaa"])
  {
    ScanSnoc(TenPerChar, 100.0, [], "aaaaa");
    assert [] + ["aaaaa"] == ["aaaaa"];
    assert Candidate([], "aaaaa") == " aaaaa";
  }

  /** A ten-character word is measured as " " + word, 110 pixels, so an empty
      line is pushed before it. */
  lemma OverWideFirstWord()
    ensures Lines(TenPerChar, 100.0, ["aaaaaaaaaa"]) == ["", "aaaaaaaaaa"]
  {
    var ws := ["aaaaaaaaaa"];
    assert ws[..0] == [];
    assert Candidate([], "aaaaaaaaaa") == " aaaaaaaaaa";
    assert Scan(TenPerChar, 100.0, ws) == Acc([[]], ["aaaaaaaaaa"]);
  }
}

=== FILE: wrappers.dfy ===
/** Optional values: a JavaScript value that may be `undefined` or `null`. */
module Wrappers {

  datatype Option<+T> = None | Some(value: T) {

    /** Returns the value held in Some, or `default` when there is none. */
    function GetOr(default: T): (r: T)
      ensures Some? ==> r == value
      ensures None? ==> r == default
    {
      match this
      case Some(v) => v
      case None => default
    }
  }
}
